=== FILE: README.md ===
# LevelDB write-ahead log writer and write-batch accessors, in Dafny

This project models two parts of a LevelDB re-implementation:

- **The log writer (`log::Writer`).** It appends logical records to a write-ahead log file made of 32 KiB blocks.
  - Each record is cut into physical records, each carrying a 7-byte header.
  - Fragments never cross a block boundary.
  - A block tail too short for a header is padded with zeros.
  - Each physical record is typed `Full`, `First`, `Middle` or `Last`.
  - Each header stores a masked CRC-32C of the type byte followed by the payload. The CRC is seeded from a per-type table filled when the writer is built.
- **The `WriteBatchInternal` accessors.** These read and rewrite the header of a `WriteBatch`: its sequence number and its entry count. They also expose its bytes and append one batch to another.

Modules:

- `LogFormat` — record types, their tag bytes, and the block and header sizes.
- `Coding` — little-endian fixed-width encodings:
  - `EncodeFixed32`/`DecodeFixed32` on 32-bit words, used for the checksum;
  - `PutFixed`/`GetFixed` on numbers, used for the batch header.
- `Crc32c` — CRC-32C as in section 12.1 of RFC 3720:
  - in the `Value`/`Extend` form the writer calls;
  - plus the checksum mask `Mask` and its inverse.
- `Env` — the `WritableFile` sink:
  - a byte sequence that `Append` extends and `Flush` leaves alone, with a ghost `flushed` that a successful `Flush` sets to the file's length;
  - either call may fail, and a failed `Append` may already have written any prefix of its data;
  - a ghost counter `faults` records failures so that the writer's guarantees can be stated for the fault-free case.
- `WriterSpec` — the functional specification of the writer:
  - `Plan(offset, data, begin)` is the list of emits (padding, type, fragment) that one `AddRecord` call performs;
  - `Stream` is the bytes those emits put in the file, and `Records` the (type, payload) pairs handed to `EmitPhysicalRecord`;
  - the properties of the log format are lemmas about these two functions.
- `LogWriter` — the `Writer` class:
  - the fields `dest`, `blockOffset` and `typeCrc`;
  - three ghost fields that record what `EmitPhysicalRecord` was asked to do and how it went: `emitLog` (the type and payload of every call, in order), `emitFaults` (how many calls failed) and `lastEmitOK`;
  - the constructors, `AddRecord` (a `while` loop for the source's `do … while`), `EmitPhysicalRecord`, and the seed-table initialiser `InitTypeCrc`;
  - one pass of the `do … while` body is the method `EmitNextFragment`, and the checksum of lines 117-118 is `RecordChecksum`, so that each proof stays small;
  - each method is proved against `WriterSpec`.
- `WriteBatchInternal` — the `WriteBatch` class with its byte string `rep`:
  - pure views of the header (`SequenceOf`, `CountOf`) and pure updates of it (`WithSequence`, `WithCount`, `AppendRep`);
  - the accessor functions and methods of `WriteBatchInternal`, stated in terms of those views and updates.
  - `write_batch.cc` is not part of this model, so the header layout is LevelDB's, taken as an assumption: an 8-byte little-endian sequence number, then a 4-byte little-endian count, then the entries.

## Model

| member | source | states |
|---|---|---|
| LogFormat.Tag | db/log_format.h:12-30 | every record type's tag byte is at most kMaxRecordType |
| LogFormat.FromTag | db/log_format.h:12-35 | a tag byte names a record type exactly when it is at most kMaxRecordType, and that type's tag is the byte |
| LogFormat.TagRange | db/log_format.h:12-35 | kMaxRecordType is the tag of Last; every tag lies in 0..kMaxRecordType, and only Zero has tag 0 |
| LogFormat.TagsOrdered | db/log_format.h:12-30 | tags follow the order Zero < Full < First < Middle < Last, so two types share a tag only if they are equal |
| LogFormat.TagRoundTrip | db/log_format.h:12-30 | reading back the tag of a type gives that type |
| LogFormat.HeaderLayout | db/log_format.h:37-47 | the header is 4 + 2 + 1 = 7 bytes, a block is 32768 bytes, and the largest payload a block can take (32761) fits the two-byte length field |
| Coding.EncodeFixed32 | db/log_writer.cc:119 | the checksum is stored in four bytes, least significant first: byte k holds bits 8k..8k+7 of the word, for k = 0..3 |
| Coding.DecodeFixed32 | db/log_writer.cc:119 | decoding four bytes gives the word whose encoding they are |
| Coding.Fixed32RoundTrip | db/log_writer.cc:119 | decoding an encoded checksum gives it back |
| Coding.PutFixed | db/write_batch_internal.h:29-48 | a number is stored in exactly `width` bytes |
| Coding.PutFixedDigits | db/write_batch_internal.h:29-48 | the encoding is little-endian: byte i is digit i of the number in base 256, for every i below the width |
| Coding.GetFixed | db/write_batch_internal.h:22-41 | the number read from `k` bytes is below 256^k |
| Coding.FixedRoundTrip | db/write_batch_internal.h:22-48 | a number that fits the width is read back unchanged |
| Coding.FixedBytesRoundTrip | db/write_batch_internal.h:22-48 | any byte string is the encoding of the number read from it |
| Crc32c.Value | db/log_writer.cc:24 | the CRC-32C of the empty string is 0 |
| Crc32c.ValueIsRaw | db/log_writer.cc:24 | the CRC-32C starts the register at all ones and inverts its final contents |
| Crc32c.Extend | db/log_writer.cc:117 | extending a CRC by no bytes leaves it unchanged |
| Crc32c.RawAppend | db/log_writer.cc:117 | feeding a concatenation into the CRC register is feeding its parts one after the other |
| Crc32c.ExtendValue | db/log_writer.cc:117 | extending the CRC of `a` over `b` gives the CRC of `a + b`, so seeding with the type's CRC checksums the type byte followed by the payload |
| Crc32c.Mask | db/log_writer.cc:118 | masking loses nothing: taking off the constant and rotating left by 15 bits gives back the CRC |
| Crc32c.Unmask | db/log_writer.cc:118 | masking the unmasked value gives back the stored checksum |
| Crc32c.UnmaskMask | db/log_writer.cc:118 | masking loses nothing: unmasking a masked CRC gives the CRC |
| Crc32c.CheckValue | db/log_writer.cc:24 | the CRC of "123456789" is the published CRC-32C check value 0xE3069283 |
| WriterSpec.RecordStart | db/log_writer.cc:50-63 | the next record starts at the current offset or, after a switch, at 0; either way a header fits in the rest of the block |
| WriterSpec.Padding | db/log_writer.cc:50-61 | no zeros are written when a header fits in the rest of the block; otherwise the zeros, fewer than a header, fill the block exactly and the record starts at 0 |
| WriterSpec.TypeFor | db/log_writer.cc:69-83 | Full exactly when the fragment both begins and ends the record, First when it only begins it, Last when it only ends it, Middle when it does neither |
| WriterSpec.Plan | db/log_writer.cc:48-90 | the do-while loop emits at least one physical record per call |
| WriterSpec.EncodeHeader | db/log_writer.cc:111-119 | a header is seven bytes |
| WriterSpec.PhysicalRecord | db/log_writer.cc:111-124 | a physical record is 7 header bytes followed by the payload, unchanged |
| WriterSpec.EmitBytes | db/log_writer.cc:50-124 | one emit appends its padding, a header and its fragment: pad + 7 + length bytes |
| WriterSpec.Stream | db/log_writer.cc:48-90 | the bytes a sequence of emits appends to the file: each emit's padding and physical record, in order; its properties are StreamShape, StreamSnoc and StreamAligned |
| WriterSpec.StreamShape | db/log_writer.cc:48-90 | the bytes of a sequence of emits (Stream) begin with the first emit's bytes, and each emit contributes at least a header |
| WriterSpec.StreamSnoc | db/log_writer.cc:85-90 | each further emit appends its bytes after those of the emits before it |
| WriterSpec.ReplaySnoc | db/log_writer.cc:85-90 | each further emit moves the block offset on from where the emits before it left it |
| WriterSpec.StreamStep | db/log_writer.cc:50-88 | a file holding the earlier emits' bytes that is given the next emit's bytes holds the bytes of all emits so far |
| WriterSpec.Records | db/log_writer.cc:85 | the type and fragment of each emit, in order: what the loop hands to EmitPhysicalRecord |
| WriterSpec.RecordsSnoc | db/log_writer.cc:85-90 | one more emit adds its type and fragment at the end of the records |
| WriterSpec.RecordsAt | db/log_writer.cc:85 | the records are the emits' types and fragments, one for one and in order |
| WriterSpec.Header | db/log_writer.cc:111-119 | the header of a record is seven bytes |
| WriterSpec.DecodeHeader | db/log_writer.cc:111-114 | the length a reader takes from bytes 4-5 is at most 0xffff |
| WriterSpec.LengthBytes | db/log_writer.cc:106-113 | for a length up to 0xffff, the low byte plus 256 times the shifted byte is the length |
| WriterSpec.SeededHeader | db/log_writer.cc:117-119 | the checksum computed from the seed table entry equals the masked CRC of the type byte followed by the payload |
| WriterSpec.EncodeHeaderRoundTrip | db/log_writer.cc:111-119 | decoding an encoded header gives back the stored checksum, the length and the tag, for a length up to 0xffff |
| WriterSpec.HeaderRoundTrip | db/log_writer.cc:103-119 | from a record's header a reader recovers the payload length, the record type and, after unmasking, the CRC of the type byte followed by the payload |
| WriterSpec.PlanStep | db/log_writer.cc:50-88 | one pass of the loop emits the first record of the plan, and the rest of the plan is the plan for the remaining bytes from the new offset |
| WriterSpec.ProgressStart | db/log_writer.cc:41-45 | before the loop nothing is emitted and the whole plan lies ahead |
| WriterSpec.ProgressStep | db/log_writer.cc:50-90 | each pass preserves the loop invariant: what has been emitted followed by the plan for the rest is the plan for the whole record |
| WriterSpec.EmptyRecord | db/log_writer.cc:41-90 | an empty record is written as one zero-length Full record |
| WriterSpec.PlanPayloads | db/log_writer.cc:66-87 | the fragments, concatenated in order, are exactly the record's bytes |
| WriterSpec.PlanKinds | db/log_writer.cc:69-88 | a single fragment gets Full (or Last when not at the beginning); otherwise the first is First, the last is Last and every one between is Middle |
| WriterSpec.PlanGrammar | db/log_writer.cc:69-90 | the types of one record's fragments form Full or First Middle* Last |
| WriterSpec.PlanConfined | db/log_writer.cc:50-67 | every planned record follows exactly the padding owed and ends inside its block |
| WriterSpec.ConfinedFragmentsFit | db/log_writer.cc:105-106 | every confined fragment is at most 32761 bytes, below the 0xffff limit, and the offset stays within the block |
| WriterSpec.StepAligned | db/log_writer.cc:50-61 | after one emit, the file length stays congruent to the block offset modulo the block size |
| WriterSpec.StreamAligned | db/log_writer.cc:33-37 | if the file length and the block offset agree modulo the block size before a record, they still agree after it |
| WriterSpec.ExactFillIsFull | db/log_writer.cc:66-73 | a 32761-byte record written from offset 0 is a single Full record that fills the block |
| WriterSpec.OneByteOverIsFirstLast | db/log_writer.cc:66-88 | one byte more gives a First record that fills the block and a one-byte Last record in the next block |
| WriterSpec.ExactFillBreaksStrictBound | db/log_writer.cc:109 | the record of ExactFillIsFull fits its block, but violates the strict bound as written |
| WriterSpec.SpillBreaksStrictBound | db/log_writer.cc:66-109 | a First or Middle fragment, i.e. one followed by more of its record, ends exactly at the end of its block, so it fits but violates the strict bound as written |
| WriterSpec.PlanRecordsFit | db/log_writer.cc:108-109 | every planned record satisfies offset + header + length <= block size |
| LogWriter.SeedTable | db/log_writer.h:78 | the seed table has one entry per record type, and entry i is the CRC-32C of the single byte i |
| LogWriter.InitTypeCrc | db/log_writer.cc:20-26 | entry i of the table becomes the CRC-32C of the single byte i, for i = 0..kMaxRecordType |
| LogWriter.Writer.Valid | db/log_writer.h:76-78 | the writer invariant: the seed table is filled and the block offset lies in 0..kBlockSize; both constructors establish it and every method keeps it |
| LogWriter.Writer.constructor | db/log_writer.cc:28-31 | a writer for an empty file starts at offset 0 with the seed table filled |
| LogWriter.Writer.Resume | db/log_writer.cc:33-37 | a writer for a file of length L starts at offset L mod the block size, aligned with the file |
| LogWriter.Writer.AddRecord | db/log_writer.cc:39-92 | without faults: the file gains exactly Stream(Plan(offset, data, true)) and the status is OK. Always: the old bytes stay a prefix, the offset is the plan's offset after the emitted records, a non-OK status means a write failed, and fault-free runs keep the file aligned with the offset. An OK status means the file was flushed after its last byte. EmitPhysicalRecord is called exactly with the type and fragment of each of the first `emitted` planned records, in order (the ghost log grows by exactly those), and `emitted` is the whole plan when the status is OK. The loop stops at the first emit that fails and returns that emit's status: the status is OK exactly when the last emit succeeded, and at most one failed emit happens per call. So a failed padding write neither changes the status nor stops the remaining emits |
| LogWriter.Writer.EmitNextFragment | db/log_writer.cc:50-88 | one pass of the loop performs exactly the emit Plan prescribes: the padding owed at the old offset, then the longest fragment that fits, typed by whether it begins and ends the record; the offset moves past it, the call is logged, and without faults the file gains exactly its bytes; an OK status means the file was flushed after its last byte |
| LogWriter.Writer.SwitchBlockIfFull | db/log_writer.cc:50-61 | a tail shorter than a header is filled with zeros and the offset returns to 0; otherwise neither the file nor the offset changes. The file always gains at most those zeros, and all of them when the write succeeds |
| LogWriter.Writer.RecordChecksum | db/log_writer.cc:117-118 | extending the type's seed over the payload and masking gives the masked CRC-32C of the type byte followed by the payload |
| LogWriter.Writer.FillHeader | db/log_writer.cc:111-119 | the seven header bytes laid out in the buffer are EncodeHeader of the checksum, the length and the type |
| LogWriter.Writer.EmitPhysicalRecord | db/log_writer.cc:103-133 | the status is OK exactly when no write or flush failed, and then the file gained the header and the payload, in that order, and was flushed after them; otherwise the file gained some prefix of them, which may be all of both when only the flush failed; the offset always advances by header + length; the call's type and payload are appended to the ghost log, and the ghost fault count and last-emit flag record the outcome |
| Env.WritableFile.Append | include/leveldb/env.h:249 | success appends all of the data; failure appends a prefix of it and counts a fault; neither flushes |
| Env.WritableFile.Flush | include/leveldb/env.h:253 | flushing never changes the file's bytes; success flushes everything written so far (the ghost `flushed` becomes the file's length); failure counts a fault and flushes nothing |
| WriteBatchInternal.ToUint32 | db/write_batch_internal.h:29-34 | an int count is stored as the unsigned 32-bit number congruent to it modulo 2^32 |
| WriteBatchInternal.ToInt32 | db/write_batch_internal.h:22-27 | the stored 32 bits are read back as the two's-complement int congruent to them, negative exactly when the top bit is set |
| WriteBatchInternal.Int32RoundTrip | db/write_batch_internal.h:22-34 | an int stored and read back is unchanged |
| WriteBatchInternal.EmptyRep | include/leveldb/write_batch.h:31 | a new batch is a zeroed 12-byte header, with sequence number 0 and count 0 |
| WriteBatchInternal.SequenceOf | db/write_batch_internal.h:36-41 | the sequence number is the number the first eight bytes encode |
| WriteBatchInternal.CountOf | db/write_batch_internal.h:22-27 | the count is the int that bytes 8..12 encode |
| WriteBatchInternal.WithSequence | db/write_batch_internal.h:43-48 | after storing s, the sequence number read back is s, and the count and entries are unchanged |
| WriteBatchInternal.WithCount | db/write_batch_internal.h:29-34 | after storing n, the count read back is n, and the sequence number and entries are unchanged |
| WriteBatchInternal.AppendRep | db/write_batch_internal.h:79-84 | appending gives the sum of the counts, keeps dst's sequence number, and the entries are dst's then src's |
| WriteBatchInternal.WithOwnCount | db/write_batch_internal.h:29-34 | storing the count a batch already has changes none of its bytes |
| WriteBatchInternal.WithOwnSequence | db/write_batch_internal.h:43-48 | storing the sequence number a batch already has changes none of its bytes |
| WriteBatchInternal.SettersCommute | db/write_batch_internal.h:29-48 | setting the count and the sequence number in either order gives the same batch |
| WriteBatchInternal.AppendEmpty | db/write_batch_internal.h:79-84 | appending a batch with no entries leaves dst unchanged |
| WriteBatchInternal.WriteBatch.constructor | include/leveldb/write_batch.h:31 | a new batch holds only the empty header |
| WriteBatchInternal.Count | db/write_batch_internal.h:22-27 | the count returned is the one whose encoding sits in bytes 8..12 |
| WriteBatchInternal.SetCount | db/write_batch_internal.h:29-34 | afterwards Count returns n, and the sequence number and entries are unchanged |
| WriteBatchInternal.Sequence | db/write_batch_internal.h:36-41 | the sequence number returned is the one whose encoding is the first eight bytes |
| WriteBatchInternal.SetSequence | db/write_batch_internal.h:43-48 | afterwards Sequence returns s, and the count and entries are unchanged |
| WriteBatchInternal.Contents | db/write_batch_internal.h:50-55 | the contents are exactly the batch's bytes |
| WriteBatchInternal.SetContents | db/write_batch_internal.h:57-62 | afterwards the batch's bytes are the given contents |
| WriteBatchInternal.ByteSize | db/write_batch_internal.h:64-69 | the size is the length of Contents |
| WriteBatchInternal.Append | db/write_batch_internal.h:79-84 | dst becomes AppendRep of the two batches, also when src is dst itself; its count is the sum of the counts and its sequence number is kept |

## Left out

- util/env_windows.cc is not part of this model: file handles, error messages, sleeping and atomics. `WritableFile` is reduced to `Append` and `Flush`, whose failures are nondeterministic. `Close` and `Sync` are never called by the writer.
- `Status` is reduced to OK / IOError; the message text is dropped.
- util/crc32c.h and util/coding.h are not part of this model. CRC-32C is defined bit by bit over the reflected Castagnoli polynomial, not by the table-driven code. `Mask` is LevelDB's rotate-right-by-15 plus 0xa282ead8. The fixed-width encodings are little-endian.
- Crc32c.Value: it is not proved equal to any table-driven implementation, because none is part of this model. The writer's proofs use only `ExtendValue` and `UnmaskMask`.
- LogWriter.Writer.constructor: the member array `type_crc_` is filled in place by `InitTypeCrc` on a fresh array. That array is then frozen into the constant sequence `typeCrc`, so later aliasing of the table is not modelled.
- LogWriter.Writer.AddRecord: after a failed write, the contract states which records were handed to `EmitPhysicalRecord`, that the old bytes stay a prefix, and where the block offset ends. It does not say which bytes reached the file, because a failed `Append` may write any prefix of its data.
- Machine integer widths (`int` block offset, `size_t` lengths, `uint64_t` file length) are unbounded integers, and overflow is not modelled. The block offset stays in 0..kBlockSize, reaching kBlockSize after a record fills its block exactly. `left` and `ptr` are bounded only by the record length, and the initial file length is only reduced modulo the block size.
- The debug assertions at db/log_writer.cc:63 and :106 are not run-time checks here. They are proved facts: `avail` is never negative, and every fragment fits the two-byte length. The strict assertion at :109 is listed under Findings.
- `WriteBatchInternal::InsertInto` is not modelled: MemTable and the entry format are not part of this model.
- WriteBatchInternal.EmptyRep: that a new batch is twelve zero bytes (sequence number 0, count 0) is LevelDB's `WriteBatch()` constructor, which calls `Clear()`; it is assumed, because write_batch.cc is not part of this model and include/leveldb/write_batch.h:31 only declares the constructor. The same holds for `WriteBatchInternal.WriteBatch.constructor`.
- The `WriteBatch` methods `Put`, `Delete`, `Clear`, `ApproximateSize`, `Iterate` and `Handler` are not modelled: their implementations (write_batch.cc) are not part of this model.
- WriteBatchInternal.CountOf / SequenceOf: the header layout (8-byte sequence number, then 4-byte count, little-endian) is LevelDB's and is assumed, because write_batch.cc is not part of this model. `SequenceNumber` is taken to be an unsigned 64-bit integer, because db/dbformat.h is not part of this model.
- WriteBatchInternal.Append requires that the two counts add up without overflowing an `int`, because signed overflow is undefined in C++.
- WriteBatchInternal.SetContents requires at least a 12-byte header, which every accessor of the header needs.
- Copying and assigning a `WriteBatch` (value semantics of `rep_`) is not modelled.

## Findings

| source | as written | input that shows it | evidently intended | confidence | as-written member | corrected member |
|---|---|---|---|---|---|---|
| db/log_writer.cc:109 | asserts block_offset_ + kHeaderSize + length < kBlockSize before writing a record | a 32761-byte record at block offset 0: AddRecord computes avail = 32761, emits one Full record with length 32761, and 0 + 7 + 32761 = 32768 is not below kBlockSize, so a debug build aborts. More broadly, every First and Middle fragment fills its block exactly (SpillBreaksStrictBound), so any record that spills into a following block also trips the assertion, for example a 32762-byte record at offset 0 | <=, since the loop may fill a block exactly | high; not executed | WriterSpec.ExactFillBreaksStrictBound | WriterSpec.PlanRecordsFit |

=== FILE: coding.dfy ===
/** Fixed-width little-endian integer encodings (the layout LevelDB's util/coding.h uses). */
module Coding {

  /** The four bytes of `v`, least significant first. */
  function EncodeFixed32(v: bv32): (r: seq<bv8>)
    ensures |r| == 4
    ensures r[0] as bv32 == v & 0xff && r[1] as bv32 == (v >> 8) & 0xff
    ensures r[2] as bv32 == (v >> 16) & 0xff && r[3] as bv32 == v >> 24
  {
    [(v & 0xff) as bv8, ((v >> 8) & 0xff) as bv8, ((v >> 16) & 0xff) as bv8, (v >> 24) as bv8]
  }

  /** Reads back a little-endian 32-bit value; it is the inverse of EncodeFixed32. */
  function DecodeFixed32(s: seq<bv8>): (r: bv32)
    requires |s| == 4
    ensures EncodeFixed32(r) == s
  {
    (s[0] as bv32) | (s[1] as bv32 << 8) | (s[2] as bv32 << 16) | (s[3] as bv32 << 24)
  }

  lemma Fixed32RoundTrip(v: bv32)
    ensures DecodeFixed32(EncodeFixed32(v)) == v
  {
  }

  /** A number below 256 survives the trip to a byte and back. */
  lemma ByteValue(x: nat)
    requires x < 256
    ensures (x as bv8) as nat == x
  {
    assert (x as bv16) as nat == x;
  }

  /** A byte survives the trip to a number and back. */
  lemma ByteBack(b: bv8)
    ensures (b as nat) as bv8 == b
  {
  }

  /** 256 to the power `k`: one more than the largest number `k` bytes can hold. */
  function Pow256(k: nat): (r: nat)
    ensures r >= 1
  {
    if k == 0 then 1 else 256 * Pow256(k - 1)
  }

  /**
   * The low `width` bytes of the number `v`, least significant first; the
   * digits above the width are dropped, as a cast to a narrower unsigned
   * type drops them.
   */
  function PutFixed(v: nat, width: nat): (r: seq<bv8>)
    ensures |r| == width
    decreases width
  {
    if width == 0 then [] else [(v % 256) as bv8] + PutFixed(v / 256, width - 1)
  }

  /** Dividing by 256 and then by 256^k is dividing by 256^(k+1). */
  lemma DivPow(v: nat, k: nat)
    ensures (v / 256) / Pow256(k) == v / Pow256(k + 1)
  {
    var p := Pow256(k);
    var q, r0 := v / 256, v % 256;
    var q2, r2 := q / p, q % p;
    assert v == 256 * q + r0;
    assert q == p * q2 + r2;
    assert v == (256 * p) * q2 + (256 * r2 + r0) by {
      assert 256 * q == 256 * (p * q2) + 256 * r2;
      assert 256 * (p * q2) == (256 * p) * q2;
    }
    assert 0 <= 256 * r2 + r0 < 256 * p;
    DivUnique(v, 256 * p, q2, 256 * r2 + r0);
  }

  /** Division with remainder has one answer. */
  lemma DivUnique(v: nat, d: nat, q: nat, r: nat)
    requires d > 0 && v == d * q + r && r < d
    ensures v / d == q
  {
    var q', r' := v / d, v % d;
    assert v == d * q' + r';
    if q' > q {
      MulMono(d, q + 1, q');
      assert false;
    } else if q' < q {
      MulMono(d, q' + 1, q);
      assert false;
    }
  }

  /** Multiplying by a natural number keeps the order. */
  lemma MulMono(d: nat, a: nat, b: nat)
    requires a <= b
    ensures d * a + d <= d * b + d && d * a == d * (a - 1) + d
  {
    assert d * b == d * a + d * (b - a);
  }

  /** Byte i of PutFixed(v, width) is the i-th base-256 digit of v: the encoding is little-endian. */
  lemma {:induction false} PutFixedDigits(v: nat, width: nat)
    ensures forall i :: 0 <= i < width ==> PutFixed(v, width)[i] as nat == (v / Pow256(i)) % 256
    decreases width
  {
    if width > 0 {
      var r := PutFixed(v, width);
      ByteValue(v % 256);
      PutFixedDigits(v / 256, width - 1);
      forall i | 0 <= i < width
        ensures r[i] as nat == (v / Pow256(i)) % 256
      {
        if i > 0 {
          assert r[i] == PutFixed(v / 256, width - 1)[i - 1];
          DivPow(v, i - 1);
        }
      }
    }
  }

  /** The number a little-endian byte string stands for. */
  function GetFixed(s: seq<bv8>): (r: nat)
    ensures r < Pow256(|s|)
    decreases |s|
  {
    if |s| == 0 then 0 else s[0] as nat + 256 * GetFixed(s[1..])
  }

  /** A number that fits in `width` bytes is read back unchanged. */
  lemma {:induction false} FixedRoundTrip(v: nat, width: nat)
    requires v < Pow256(width)
    ensures GetFixed(PutFixed(v, width)) == v
    decreases width
  {
    if width > 0 {
      var s := PutFixed(v, width);
      ByteValue(v % 256);
      assert s[1..] == PutFixed(v / 256, width - 1);
      FixedRoundTrip(v / 256, width - 1);
    }
  }

  /** The lowest base-256 digit and the rest of a number come apart again. */
  lemma DigitSplit(low: nat, high: nat)
    requires low < 256
    ensures (low + 256 * high) % 256 == low && (low + 256 * high) / 256 == high
  {
  }

  /** Any byte string is the encoding of the number it stands for. */
  lemma {:induction false} FixedBytesRoundTrip(s: seq<bv8>)
    ensures PutFixed(GetFixed(s), |s|) == s
    decreases |s|
  {
    if |s| > 0 {
      var v := GetFixed(s);
      var rest := s[1..];
      DigitSplit(s[0] as nat, GetFixed(rest));
      ByteBack(s[0]);
      var low: bv8 := (v % 256) as bv8;
      assert low == s[0];
      FixedBytesRoundTrip(rest);
      assert PutFixed(v / 256, |s| - 1) == rest;
      assert PutFixed(v, |s|) == [low] + rest;
      assert s == [s[0]] + rest;
    }
  }
}

=== FILE: crc32c.dfy ===
/**
 * CRC-32C (Castagnoli), the digest of section 12.1 of RFC 3720, in the
 * Value/Extend form LevelDB's crc32c interface offers, plus the masking
 * transform stored in log record headers. The table-driven implementation
 * (util/crc32c.h) is not part of this model: the digest is defined here
 * bit by bit over the reflected polynomial.
 */
module Crc32c {

  /** The Castagnoli polynomial 0x1EDC6F41, bit-reflected. */
  const Poly: bv32 := 0x82F6_3B78

  /** Constant added by Mask after the rotation. */
  const kMaskDelta: bv32 := 0xa282_ead8

  /** `k` steps of the reflected shift register. */
  function Shift(c: bv32, k: nat): bv32
    decreases k
  {
    if k == 0 then c
    else Shift(if c & 1 == 1 then (c >> 1) ^ Poly else c >> 1, k - 1)
  }

  /** Feeds one byte into the (un-inverted) register. */
  function Update(c: bv32, b: bv8): bv32 {
    Shift(c ^ (b as bv32), 8)
  }

  /** Feeds a byte string, first byte first, into the (un-inverted) register. */
  function Raw(c: bv32, data: seq<bv8>): bv32
    decreases |data|
  {
    if |data| == 0 then c else Raw(Update(c, data[0]), data[1..])
  }

  /** The CRC of A ++ data, given `init`, the CRC of some string A; extending by nothing keeps it. */
  function Extend(init: bv32, data: seq<bv8>): (r: bv32)
    ensures data == [] ==> r == init
  {
    DoubleComplement(init);
    !Raw(!init, data)
  }

  /**
   * The CRC-32C of `data`: the register starts with all ones and its final
   * contents are inverted, as section 12.1 of RFC 3720 prescribes.
   */
  function Value(data: seq<bv8>): (r: bv32)
    ensures data == [] ==> r == 0
  {
    Extend(0, data)
  }

  /** Feeding a concatenation is feeding its parts one after the other. */
  lemma {:induction false} RawAppend(c: bv32, a: seq<bv8>, b: seq<bv8>)
    ensures Raw(c, a + b) == Raw(Raw(c, a), b)
    decreases |a|
  {
    if |a| == 0 {
      assert a + b == b;
    } else {
      assert (a + b)[1..] == a[1..] + b;
      RawAppend(Update(c, a[0]), a[1..], b);
    }
  }

  /** Value starts the register at all ones and inverts its final contents. */
  lemma ValueIsRaw(a: seq<bv8>)
    ensures Value(a) == !Raw(0xffff_ffff, a)
  {
  }

  lemma DoubleComplement(x: bv32)
    ensures !!x == x
  {
  }

  /** Extending the CRC of `a` by `b` gives the CRC of `a + b`. */
  lemma ExtendValue(a: seq<bv8>, b: seq<bv8>)
    ensures Extend(Value(a), b) == Value(a + b)
  {
    ValueIsRaw(a);
    ValueIsRaw(a + b);
    DoubleComplement(Raw(0xffff_ffff, a));
    RawAppend(0xffff_ffff, a, b);
  }

  /**
   * Rotate right by 15 bits and add a constant. Nothing is lost: taking the
   * constant off and rotating left by 15 bits recovers `crc`.
   */
  function Mask(crc: bv32): (r: bv32)
    ensures ((r - kMaskDelta) >> 17) | ((r - kMaskDelta) << 15) == crc
  {
    var rot := (crc >> 15) | (crc << 17);
    RotateBack(crc);
    TakeOff(rot, kMaskDelta);
    rot + kMaskDelta
  }

  /** Rotating right by 15 bits and then left by 15 bits gives the word back. */
  lemma RotateBack(x: bv32)
    ensures (((x >> 15) | (x << 17)) >> 17) | (((x >> 15) | (x << 17)) << 15) == x
  {
  }

  /** Adding a constant and taking it off again, modulo 2^32, gives the word back. */
  lemma TakeOff(x: bv32, d: bv32)
    ensures (x + d) - d == x
  {
  }

  /** Undoes Mask: subtract the constant and rotate left by 15 bits. */
  function Unmask(masked: bv32): (r: bv32)
    ensures Mask(r) == masked
  {
    var rot := masked - kMaskDelta;
    (rot >> 17) | (rot << 15)
  }

  /** Mask loses nothing: a stored checksum identifies the CRC it came from. */
  lemma UnmaskMask(crc: bv32)
    ensures Unmask(Mask(crc)) == crc
  {
    var rot := (crc >> 15) | (crc << 17);
    assert Mask(crc) - kMaskDelta == rot;
    assert (rot >> 17) | (rot << 15) == crc;
  }

  /** The published check value of CRC-32C, the digest of the ASCII text "123456789". */
  lemma CheckValue()
    ensures Value([0x31, 0x32, 0x33, 0x34, 0x35, 0x36, 0x37, 0x38, 0x39]) == 0xE306_9283
  {
    assert Update(0xffff_ffff, 0x31) == 0x6f0a_661c;
    assert Update(0x6f0a_661c, 0x32) == 0x8caa_3b9f;
    assert Update(0x8caa_3b9f, 0x33) == 0xef84_d04d;
    assert Update(0xef84_d04d, 0x34) == 0x09c5_0b11;
    assert Update(0x09c5_0b11, 0x35) == 0xe72e_dcca;
    assert Update(0xe72e_dcca, 0x36) == 0xbeca_8e79;
    assert Update(0xbeca_8e79, 0x37) == 0xedbd_6815;
    assert Update(0xedbd_6815, 0x38) == 0x9f78_7f65;
    assert Update(0x9f78_7f65, 0x39) == 0x1cf9_6d7c;
  }
}

=== FILE: env.dfy ===
/**
 * The byte sink the log writer appends to: the Append/Flush part of
 * WritableFile. The real file and its failure modes are outside this model;
 * here any call may fail, and a failed Append may already have written any
 * prefix of its data.
 */
module Env {

  datatype Status = OK | IOError

  class WritableFile {
    /** The bytes the file holds so far. */
    var contents: seq<bv8>
    /** How many Append or Flush calls have failed on this file. */
    ghost var faults: nat
    /** How many bytes the latest successful Flush pushed down: the file's length at that call. */
    ghost var flushed: nat

    constructor (initial: seq<bv8>)
      ensures contents == initial && faults == 0 && flushed == 0
    {
      contents := initial;
      faults := 0;
      flushed := 0;
    }

    /** Appends `data`; on failure some prefix of it may have reached the file. */
    method Append(data: seq<bv8>) returns (s: Status)
      modifies this
      ensures s.OK? ==> contents == old(contents) + data && faults == old(faults)
      ensures s.IOError? ==> faults == old(faults) + 1
      ensures old(contents) <= contents <= old(contents) + data
      ensures flushed == old(flushed)
    {
      var succeeded: bool :| true;
      if succeeded {
        contents := contents + data;
        s := OK;
      } else {
        var written: nat :| written <= |data|;
        contents := contents + data[..written];
        faults := faults + 1;
        s := IOError;
      }
    }

    /** Pushes buffered bytes down; it never changes what the file holds. */
    method Flush() returns (s: Status)
      modifies this
      ensures contents == old(contents)
      ensures s.OK? ==> faults == old(faults)
      ensures s.IOError? ==> faults == old(faults) + 1
      ensures s.OK? ==> flushed == |contents|
      ensures s.IOError? ==> flushed == old(flushed)
    {
      var succeeded: bool :| true;
      if succeeded {
        flushed := |contents|;
        s := OK;
      } else {
        faults := faults + 1;
        s := IOError;
      }
    }
  }
}

=== FILE: log_format.dfy ===
/** The constants both sides of the write-ahead log agree on. */
module LogFormat {

  /** Physical record types. Zero marks preallocated, never-written space. */
  datatype RecordType = Zero | Full | First | Middle | Last

  /** Bytes in one log block. */
  const kBlockSize: nat := 32768

  /** Checksum (4 bytes) + length (2 bytes) + type (1 byte). */
  const kHeaderSize: nat := 4 + 2 + 1

  /** The largest tag in use: the tag of Last. */
  const kMaxRecordType: nat := 4

  /** The tag byte written for each record type. */
  function Tag(t: RecordType): (r: nat)
    ensures r <= kMaxRecordType
  {
    match t
    case Zero => 0
    case Full => 1
    case First => 2
    case Middle => 3
    case Last => 4
  }

  /** The record type a tag byte stands for; None for tags above kMaxRecordType. */
  function FromTag(b: nat): (r: Option<RecordType>)
    ensures r.Some? <==> b <= kMaxRecordType
    ensures r.Some? ==> Tag(r.value) == b
  {
    if b == 0 then Some(Zero)
    else if b == 1 then Some(Full)
    else if b == 2 then Some(First)
    else if b == 3 then Some(Middle)
    else if b == 4 then Some(Last)
    else None
  }

  datatype Option<T> = None | Some(value: T)

  /** kMaxRecordType is Last's tag, and every tag lies in 0..kMaxRecordType. */
  lemma TagRange(t: RecordType)
    ensures Tag(t) <= kMaxRecordType == Tag(Last)
    ensures t != Zero ==> Tag(t) >= 1
  {
  }

  /** Tags are listed in the order Zero, Full, First, Middle, Last, so distinct types have distinct tags. */
  lemma TagsOrdered(s: RecordType, t: RecordType)
    ensures s.Zero? && !t.Zero? ==> Tag(s) < Tag(t)
    ensures s.Full? && (t.First? || t.Middle? || t.Last?) ==> Tag(s) < Tag(t)
    ensures s.First? && (t.Middle? || t.Last?) ==> Tag(s) < Tag(t)
    ensures s.Middle? && t.Last? ==> Tag(s) < Tag(t)
    ensures Tag(s) == Tag(t) <==> s == t
  {
  }

  /** Reading a written tag gives back the record type. */
  lemma TagRoundTrip(t: RecordType)
    ensures FromTag(Tag(t)) == Some(t)
  {
  }

  /** The header is exactly four checksum bytes, two length bytes and one type byte. */
  lemma HeaderLayout()
    ensures kHeaderSize == 7 && kBlockSize == 32768
    ensures kBlockSize - kHeaderSize == 32761 <= 0xffff
  {
  }
}

=== FILE: log_writer.dfy ===
/**
 * log::Writer: cuts each logical record into physical records that never
 * cross a block boundary, checksums them and appends them to a file.
 */
module LogWriter {
  import opened LogFormat
  import opened WriterSpec
  import opened Env
  import Crc32c
  import Coding

  /** Fills the per-type seed table: entry i is the CRC-32C of the single byte i. */
  method InitTypeCrc(typeCrc: array<bv32>)
    requires typeCrc.Length == kMaxRecordType + 1
    modifies typeCrc
    ensures forall i :: 0 <= i < typeCrc.Length ==> typeCrc[i] == Crc32c.Value([i as bv8])
  {
    for i := 0 to typeCrc.Length
      invariant forall j :: 0 <= j < i ==> typeCrc[j] == Crc32c.Value([j as bv8])
    {
      typeCrc[i] := Crc32c.Value([i as bv8]);
    }
  }

  /** Entry i of `typeCrc` is the CRC-32C of the single byte i, for every record type's tag i. */
  ghost predicate SeedTable(typeCrc: seq<bv32>) {
    |typeCrc| == kMaxRecordType + 1 &&
    forall i :: 0 <= i < |typeCrc| ==> typeCrc[i] == Crc32c.Value([i as bv8])
  }

  /** A file that grew by part of `h`, or by all of `h` and part of `f`, grew by part of `h + f`. */
  lemma AppendChain(start: seq<bv8>, h: seq<bv8>, f: seq<bv8>, now: seq<bv8>)
    requires (start <= now <= start + h) || (start + h <= now <= start + h + f)
    ensures start <= now <= start + (h + f)
  {
  }

  /** Seven bytes laid out one by one form the four-byte and three-byte parts put together. */
  lemma Concat7(h: seq<bv8>, a: seq<bv8>, b: seq<bv8>)
    requires |h| == 7 && |a| == 4 && |b| == 3
    requires h[0] == a[0] && h[1] == a[1] && h[2] == a[2] && h[3] == a[3]
    requires h[4] == b[0] && h[5] == b[1] && h[6] == b[2]
    ensures h == a + b
  {
  }

  /** Being a prefix is transitive. */
  lemma PrefixChain(a: seq<bv8>, b: seq<bv8>, c: seq<bv8>, d: seq<bv8>)
    requires a <= b <= c <= d
    ensures a <= d
  {
  }

  class Writer {
    /** The log file, which this writer only appends to. */
    const dest: WritableFile
    /** Position within the current block. */
    var blockOffset: int
    /** CRC-32C of each record type's tag byte, the seed of that type's record checksums; filled once, by the constructor. */
    const typeCrc: seq<bv32>
    /** How many calls of EmitPhysicalRecord have returned a failed status. */
    ghost var emitFaults: nat
    /** Whether the latest call of EmitPhysicalRecord returned OK. */
    ghost var lastEmitOK: bool
    /** The type and payload of every call of EmitPhysicalRecord so far, in call order. */
    ghost var emitLog: seq<Fragment>

    ghost predicate Valid()
      reads this
    {
      SeedTable(typeCrc) && 0 <= blockOffset <= kBlockSize
    }

    /** The file length and the block offset agree modulo the block size. */
    ghost predicate Aligned()
      reads this, dest
    {
      |dest.contents| % kBlockSize == blockOffset % kBlockSize
    }

    /** A writer for a log file that must be empty. */
    constructor (dest: WritableFile)
      requires dest.contents == []
      ensures this.dest == dest && blockOffset == 0 && emitFaults == 0 && emitLog == []
      ensures Valid() && Aligned()
    {
      this.dest := dest;
      blockOffset := 0;
      emitFaults, lastEmitOK, emitLog := 0, true, [];
      var table := new bv32[kMaxRecordType + 1];
      InitTypeCrc(table);
      typeCrc := table[..];
    }

    /** A writer that continues a log file already `destLength` bytes long. */
    constructor Resume(dest: WritableFile, destLength: nat)
      requires |dest.contents| == destLength
      ensures this.dest == dest && blockOffset == destLength % kBlockSize && emitFaults == 0 && emitLog == []
      ensures Valid() && Aligned()
    {
      this.dest := dest;
      blockOffset := destLength % kBlockSize;
      emitFaults, lastEmitOK, emitLog := 0, true, [];
      var table := new bv32[kMaxRecordType + 1];
      InitTypeCrc(table);
      typeCrc := table[..];
    }

    /**
     * Appends the logical record `data`. Every pass of the do-while loop
     * emits the next record of Plan(blockOffset, data, true); the loop stops
     * after the last one or at the first emit that fails, and returns the
     * status of the last emit. `emitted` counts the passes, the failed one
     * included, and they are exactly the physical records handed to
     * EmitPhysicalRecord. A failed padding write changes neither the status
     * nor the passes that follow.
     */
    method AddRecord(data: seq<bv8>) returns (s: Status, ghost emitted: nat)
      requires Valid()
      modifies this`blockOffset, this`emitFaults, this`lastEmitOK, this`emitLog, dest
      ensures Valid()
      ensures emitFaults == old(emitFaults) + (if s.OK? then 0 else 1)
      ensures s.OK? <==> lastEmitOK
      ensures var plan := Plan(old(blockOffset), data, true);
        1 <= emitted <= |plan| &&
        (s.OK? ==> emitted == |plan|) &&
        blockOffset == Replay(old(blockOffset), plan[..emitted]) &&
        emitLog == old(emitLog) + Records(plan[..emitted])
      ensures dest.faults == old(dest.faults) ==>
        s.OK? && dest.contents == old(dest.contents) + Stream(Plan(old(blockOffset), data, true))
      ensures !s.OK? ==> dest.faults > old(dest.faults)
      ensures old(dest.contents) <= dest.contents
      ensures old(Aligned()) && dest.faults == old(dest.faults) ==> Aligned()
      ensures s.OK? ==> dest.flushed == |dest.contents|
    {
      ghost var o0 := blockOffset;
      ghost var plan := Plan(blockOffset, data, true);
      ghost var done: seq<Emit> := [];
      var ptr := 0;
      var left := |data|;
      var begin := true;
      var more := true;
      s := OK;
      ProgressStart(o0, data);
      assert old(emitLog) + Records(done) == old(emitLog);
      while more
        invariant Valid() && left == |data| - ptr
        invariant Progress(o0, data, done, ptr, begin, blockOffset)
        invariant more ==> s.OK? && (done == [] || ptr < |data|)
        invariant !more ==> done != [] && (s.OK? ==> ptr == |data|)
        invariant dest.faults >= old(dest.faults)
        invariant dest.faults == old(dest.faults) ==> dest.contents == old(dest.contents) + Stream(done)
        invariant !s.OK? ==> dest.faults > old(dest.faults)
        invariant old(dest.contents) <= dest.contents
        invariant emitFaults == old(emitFaults) + (if s.OK? then 0 else 1)
        invariant done != [] ==> (s.OK? <==> lastEmitOK)
        invariant emitLog == old(emitLog) + Records(done)
        invariant done != [] && s.OK? ==> dest.flushed == |dest.contents|
        decreases |plan| - |done|
      {
        ghost var o, before := blockOffset, dest.contents;
        ghost var done0, ptr0, begin0 := done, ptr, begin;
        var fragmentLength;
        s, fragmentLength := EmitNextFragment(data, ptr, left, begin);
        ghost var e := Emit(Padding(o), TypeFor(begin0, ptr0 + fragmentLength == |data|), data[ptr0..ptr0 + fragmentLength]);
        ptr := ptr + fragmentLength;
        left := left - fragmentLength;
        begin := false;
        done := done + [e];
        RecordsSnoc(done0, e);
        Associate3(old(emitLog), Records(done0), [Fragment(e.kind, e.fragment)]);
        ProgressStep(o0, data, done0, ptr0, begin0, o, fragmentLength, e, done, ptr, blockOffset);
        if dest.faults == old(dest.faults) {
          StreamStep(old(dest.contents), done0, e, before, dest.contents);
        }
        more := s.OK? && left > 0;
      }
      emitted := |done|;
      if ptr < |data| {
        assert plan == done + Plan(blockOffset, data[ptr..], begin);
      } else {
        assert plan == done;
      }
      assert plan[..emitted] == done;
      if dest.faults == old(dest.faults) {
        PlanConfined(o0, data, true);
        if old(Aligned()) {
          StreamAligned(|old(dest.contents)|, o0, plan);
        }
      }
    }

    /**
     * One pass of AddRecord's do-while loop: moves to a new block when the
     * tail cannot hold a header, cuts from the `left` bytes of `data` at `ptr`
     * the longest fragment the block can take, types it by whether it begins
     * and ends the record, and emits it. The pass performs exactly the emit
     * Plan prescribes: the padding owed at the old offset, then that record.
     */
    method EmitNextFragment(data: seq<bv8>, ptr: nat, left: nat, begin: bool) returns (s: Status, fragmentLength: nat)
      requires Valid() && ptr + left == |data|
      modifies this`blockOffset, this`emitFaults, this`lastEmitOK, this`emitLog, dest
      ensures Valid()
      ensures fragmentLength == Min(left, kBlockSize - RecordStart(old(blockOffset)) - kHeaderSize) <= left
      ensures var e := Emit(Padding(old(blockOffset)), TypeFor(begin, ptr + fragmentLength == |data|), data[ptr..ptr + fragmentLength]);
        blockOffset == Next(old(blockOffset), e) &&
        emitLog == old(emitLog) + [Fragment(e.kind, e.fragment)] &&
        (dest.faults == old(dest.faults) ==> dest.contents == old(dest.contents) + EmitBytes(e))
      ensures emitFaults == old(emitFaults) + (if s.OK? then 0 else 1) && lastEmitOK == s.OK?
      ensures dest.faults >= old(dest.faults)
      ensures !s.OK? ==> dest.faults > old(dest.faults)
      ensures old(dest.contents) <= dest.contents
      ensures s.OK? ==> dest.flushed == |dest.contents|
    {
      ghost var padding := Zeros(Padding(blockOffset));
      SwitchBlockIfFull();
      ghost var padded := dest.contents;
      var avail := kBlockSize - blockOffset - kHeaderSize;
      fragmentLength := Min(left, avail);
      var end := left == fragmentLength;
      var kind;
      if begin && end {
        kind := Full;
      } else if begin {
        kind := First;
      } else if end {
        kind := Last;
      } else {
        kind := Middle;
      }
      var fragment := data[ptr..ptr + fragmentLength];
      assert kind == TypeFor(begin, ptr + fragmentLength == |data|);
      s := EmitPhysicalRecord(kind, fragment);
      PrefixChain(old(dest.contents), old(dest.contents), padded, dest.contents);
      if dest.faults == old(dest.faults) {
        Associate3(old(dest.contents), padding, PhysicalRecord(kind, fragment));
      }
    }

    /**
     * When the rest of the block cannot hold a header, fills it with zeros and
     * moves to the start of the next block. The status of the padding write is
     * not looked at.
     */
    method SwitchBlockIfFull()
      requires Valid()
      modifies this`blockOffset, dest
      ensures Valid()
      ensures blockOffset == RecordStart(old(blockOffset))
      ensures dest.faults >= old(dest.faults)
      ensures dest.faults == old(dest.faults) ==> dest.contents == old(dest.contents) + Zeros(Padding(old(blockOffset)))
      ensures Padding(old(blockOffset)) == 0 ==> dest.contents == old(dest.contents) && dest.faults == old(dest.faults)
      ensures old(dest.contents) <= dest.contents <= old(dest.contents) + Zeros(Padding(old(blockOffset)))
    {
      var leftover := kBlockSize - blockOffset;
      if leftover < kHeaderSize {
        if leftover > 0 {
          var _ := dest.Append(Zeros(leftover));
        }
        blockOffset := 0;
      }
    }

    /**
     * Lays out a 7-byte header in a buffer: the length's low and high bytes
     * and the type byte, then the stored checksum in little-endian order.
     */
    static method FillHeader(masked: bv32, length: nat, tag: nat) returns (header: seq<bv8>)
      requires tag < 256
      ensures header == EncodeHeader(masked, length, tag)
    {
      var buf := new bv8[kHeaderSize];
      buf[4] := (length % 256) as bv8;
      buf[5] := ((length / 256) % 256) as bv8;
      buf[6] := tag as bv8;
      var fixed := Coding.EncodeFixed32(masked);
      buf[0], buf[1], buf[2], buf[3] := fixed[0], fixed[1], fixed[2], fixed[3];
      header := buf[..];
      Concat7(header, fixed, [(length % 256) as bv8, ((length / 256) % 256) as bv8, tag as bv8]);
    }

    /**
     * The checksum stored in a record's header: the type's precomputed seed
     * extended over the payload, then masked. It is the masked CRC-32C of the
     * type byte followed by the payload.
     */
    method RecordChecksum(kind: RecordType, fragment: seq<bv8>) returns (crc: bv32)
      requires Valid()
      ensures crc == Crc32c.Mask(Crc32c.Value([Tag(kind) as bv8] + fragment))
    {
      var seed := typeCrc[Tag(kind)];
      assert seed == Crc32c.Value([Tag(kind) as bv8]);
      crc := Crc32c.Extend(seed, fragment);
      Crc32c.ExtendValue([Tag(kind) as bv8], fragment);
      crc := Crc32c.Mask(crc);
    }

    /**
     * Writes one physical record: the 7-byte header, whose checksum extends
     * the type's precomputed seed over the payload, then the payload, then a
     * flush, each only if the step before succeeded. The block offset moves
     * past the record whatever the outcome.
     */
    method EmitPhysicalRecord(kind: RecordType, fragment: seq<bv8>) returns (s: Status)
      requires Valid()
      requires RecordFits(blockOffset, |fragment|)
      modifies this`blockOffset, this`emitFaults, this`lastEmitOK, this`emitLog, dest
      ensures Valid()
      ensures emitFaults == old(emitFaults) + (if s.OK? then 0 else 1) && lastEmitOK == s.OK?
      ensures emitLog == old(emitLog) + [Fragment(kind, fragment)]
      ensures blockOffset == old(blockOffset) + kHeaderSize + |fragment|
      ensures dest.faults >= old(dest.faults)
      ensures s.OK? <==> dest.faults == old(dest.faults)
      ensures s.OK? ==> dest.contents == old(dest.contents) + PhysicalRecord(kind, fragment)
      ensures old(dest.contents) <= dest.contents <= old(dest.contents) + PhysicalRecord(kind, fragment)
      ensures s.OK? ==> dest.flushed == |dest.contents|
    {
      var crc := RecordChecksum(kind, fragment);
      var header := FillHeader(crc, |fragment|, Tag(kind));

      ghost var start := dest.contents;
      assert PhysicalRecord(kind, fragment) == header + fragment;
      s := dest.Append(header);
      if s.OK? {
        s := dest.Append(fragment);
        if s.OK? {
          Associate3(start, header, fragment);
          s := dest.Flush();
        }
      }
      AppendChain(start, header, fragment, dest.contents);
      blockOffset := blockOffset + kHeaderSize + |fragment|;
      emitFaults := emitFaults + if s.OK? then 0 else 1;
      lastEmitOK := s.OK?;
      emitLog := emitLog + [Fragment(kind, fragment)];
    }
  }
}

=== FILE: write_batch.dfy ===
/**
 * WriteBatchInternal: the accessors the database uses on a WriteBatch and
 * keeps from its users. A batch is one owned byte string, `rep`. Its header
 * has LevelDB's layout: an 8-byte little-endian sequence number, then a
 * 4-byte little-endian entry count, then the entries themselves.
 */
module WriteBatchInternal {
  import Coding

  /** Bytes before the first entry: the sequence number (8) and the count (4). */
  const kHeader: nat := 12

  /** C++ `int`: 32 bits, two's complement. */
  type Int32 = x: int | -0x8000_0000 <= x < 0x8000_0000

  /** SequenceNumber: an unsigned 64-bit integer. */
  type SequenceNumber = x: nat | x < 0x1_0000_0000_0000_0000

  /** The conversion int -> uint32: the unsigned number the same 32 bits spell. */
  function ToUint32(n: Int32): (r: nat)
    ensures r < 0x1_0000_0000
    ensures (r - n) % 0x1_0000_0000 == 0
  {
    if n < 0 then n + 0x1_0000_0000 else n
  }

  /** The conversion uint32 -> int: the two's-complement reading of 32 bits. */
  function ToInt32(u: nat): (r: Int32)
    requires u < 0x1_0000_0000
    ensures (u - r) % 0x1_0000_0000 == 0
    ensures r >= 0 <==> u < 0x8000_0000
  {
    if u < 0x8000_0000 then u else u - 0x1_0000_0000
  }

  /** An int stored as a uint32 and read back as an int is unchanged. */
  lemma Int32RoundTrip(n: Int32)
    ensures ToInt32(ToUint32(n)) == n
  {
  }

  /** A header laid out from its three parts gives each part back. */
  lemma Split(p: seq<bv8>, q: seq<bv8>, t: seq<bv8>)
    requires |p| == 8 && |q| == 4
    ensures (p + q + t)[..8] == p && (p + q + t)[8..kHeader] == q && (p + q + t)[kHeader..] == t
  {
  }

  /** A batch is its sequence bytes, its count bytes and its entries, in that order. */
  lemma Whole(rep: seq<bv8>)
    requires |rep| >= kHeader
    ensures rep == rep[..8] + rep[8..kHeader] + rep[kHeader..]
  {
  }

  /** The header of a batch with no entries: every header byte zero, so sequence number 0 and count 0. */
  function EmptyRep(): (r: seq<bv8>)
    ensures |r| == kHeader
    ensures forall i :: 0 <= i < |r| ==> r[i] == 0
    ensures SequenceOf(r) == 0 && CountOf(r) == 0
  {
    var r := Coding.PutFixed(0, 8) + Coding.PutFixed(0, 4) + [];
    Split(Coding.PutFixed(0, 8), Coding.PutFixed(0, 4), []);
    Coding.FixedRoundTrip(0, 8);
    Coding.FixedRoundTrip(0, 4);
    r
  }

  /** The sequence number stored in the first eight bytes of `rep`. */
  function SequenceOf(rep: seq<bv8>): (r: SequenceNumber)
    requires |rep| >= kHeader
    ensures Coding.PutFixed(r, 8) == rep[..8]
  {
    Coding.FixedBytesRoundTrip(rep[..8]);
    assert Coding.Pow256(8) == 0x1_0000_0000_0000_0000;
    Coding.GetFixed(rep[..8])
  }

  /** The entry count stored in bytes 8..12 of `rep`, read as a C++ int. */
  function CountOf(rep: seq<bv8>): (r: Int32)
    requires |rep| >= kHeader
    ensures Coding.PutFixed(ToUint32(r), 4) == rep[8..kHeader]
  {
    Coding.FixedBytesRoundTrip(rep[8..kHeader]);
    assert Coding.Pow256(4) == 0x1_0000_0000;
    ToInt32(Coding.GetFixed(rep[8..kHeader]))
  }

  /** `rep` with its first eight bytes overwritten by the encoding of `s`. */
  function WithSequence(rep: seq<bv8>, s: SequenceNumber): (r: seq<bv8>)
    requires |rep| >= kHeader
    ensures |r| == |rep|
    ensures SequenceOf(r) == s
    ensures CountOf(r) == CountOf(rep)
    ensures r[kHeader..] == rep[kHeader..]
  {
    var r := Coding.PutFixed(s, 8) + rep[8..kHeader] + rep[kHeader..];
    Split(Coding.PutFixed(s, 8), rep[8..kHeader], rep[kHeader..]);
    Coding.FixedRoundTrip(s, 8);
    r
  }

  /** `rep` with bytes 8..12 overwritten by the encoding of `n`. */
  function WithCount(rep: seq<bv8>, n: Int32): (r: seq<bv8>)
    requires |rep| >= kHeader
    ensures |r| == |rep|
    ensures CountOf(r) == n
    ensures SequenceOf(r) == SequenceOf(rep)
    ensures r[kHeader..] == rep[kHeader..]
  {
    var r := rep[..8] + Coding.PutFixed(ToUint32(n), 4) + rep[kHeader..];
    Split(rep[..8], Coding.PutFixed(ToUint32(n), 4), rep[kHeader..]);
    Coding.FixedRoundTrip(ToUint32(n), 4);
    Int32RoundTrip(n);
    r
  }

  /** Whether the two counts add up without overflowing a C++ int. */
  predicate SumFits(a: Int32, b: Int32) {
    -0x8000_0000 <= a + b < 0x8000_0000
  }

  /** A byte string that holds a whole header keeps it when more bytes are added at the end. */
  lemma Extended(w: seq<bv8>, t: seq<bv8>)
    requires |w| >= kHeader
    ensures (w + t)[..8] == w[..8] && (w + t)[8..kHeader] == w[8..kHeader]
    ensures (w + t)[kHeader..] == w[kHeader..] + t
  {
  }

  /** `dst` with the count raised by the count of `src` and the entries of `src` appended. */
  function AppendRep(dst: seq<bv8>, src: seq<bv8>): (r: seq<bv8>)
    requires |dst| >= kHeader && |src| >= kHeader
    requires SumFits(CountOf(dst), CountOf(src))
    ensures |r| == |dst| + |src| - kHeader
    ensures CountOf(r) == CountOf(dst) + CountOf(src)
    ensures SequenceOf(r) == SequenceOf(dst)
    ensures r[kHeader..] == dst[kHeader..] + src[kHeader..]
  {
    var w := WithCount(dst, CountOf(dst) + CountOf(src));
    Extended(w, src[kHeader..]);
    w + src[kHeader..]
  }

  /** Appending is storing the summed count, then adding the entries of `src` at the end. */
  lemma AppendRepSteps(dst: seq<bv8>, src: seq<bv8>)
    requires |dst| >= kHeader && |src| >= kHeader
    requires SumFits(CountOf(dst), CountOf(src))
    ensures AppendRep(dst, src) == WithCount(dst, CountOf(dst) + CountOf(src)) + src[kHeader..]
  {
  }

  /** Storing the count a batch already has leaves its bytes as they were. */
  lemma WithOwnCount(rep: seq<bv8>)
    requires |rep| >= kHeader
    ensures WithCount(rep, CountOf(rep)) == rep
  {
    Whole(rep);
  }

  /** Storing the sequence number a batch already has leaves its bytes as they were. */
  lemma WithOwnSequence(rep: seq<bv8>)
    requires |rep| >= kHeader
    ensures WithSequence(rep, SequenceOf(rep)) == rep
  {
    Whole(rep);
  }

  /** The two header fields are independent: setting them in either order gives the same bytes. */
  lemma SettersCommute(rep: seq<bv8>, n: Int32, s: SequenceNumber)
    requires |rep| >= kHeader
    ensures WithCount(WithSequence(rep, s), n) == WithSequence(WithCount(rep, n), s)
  {
    var a := WithSequence(rep, s);
    var b := WithCount(rep, n);
    Split(Coding.PutFixed(s, 8), rep[8..kHeader], rep[kHeader..]);
    Split(rep[..8], Coding.PutFixed(ToUint32(n), 4), rep[kHeader..]);
  }

  /** Appending a batch that holds no entries changes nothing. */
  lemma AppendEmpty(dst: seq<bv8>)
    requires |dst| >= kHeader
    ensures AppendRep(dst, EmptyRep()) == dst
  {
    AppendRepSteps(dst, EmptyRep());
    WithOwnCount(dst);
    assert EmptyRep()[kHeader..] == [];
    assert dst + [] == dst;
  }

  /** A batch of Put/Delete entries behind a 12-byte header. */
  class WriteBatch {
    /** The whole batch as one byte string: header, then entries. */
    var rep: seq<bv8>

    ghost predicate Valid()
      reads this
    {
      |rep| >= kHeader
    }

    /** An empty batch: a zeroed header and no entries. */
    constructor ()
      ensures rep == EmptyRep()
      ensures Valid()
    {
      rep := EmptyRep();
    }
  }

  /** The number of entries in `batch`. */
  function Count(batch: WriteBatch): (r: Int32)
    requires batch.Valid()
    reads batch
    ensures Coding.PutFixed(ToUint32(r), 4) == batch.rep[8..kHeader]
  {
    CountOf(batch.rep)
  }

  /** Stores `n` as the number of entries in `batch`. */
  method SetCount(batch: WriteBatch, n: Int32)
    requires batch.Valid()
    modifies batch
    ensures batch.rep == WithCount(old(batch.rep), n)
    ensures batch.Valid() && Count(batch) == n
    ensures Sequence(batch) == old(Sequence(batch))
  {
    batch.rep := batch.rep[..8] + Coding.PutFixed(ToUint32(n), 4) + batch.rep[kHeader..];
  }

  /** The sequence number of the first entry of `batch`. */
  function Sequence(batch: WriteBatch): (r: SequenceNumber)
    requires batch.Valid()
    reads batch
    ensures Coding.PutFixed(r, 8) == batch.rep[..8]
  {
    SequenceOf(batch.rep)
  }

  /** Stores `s` as the sequence number of the first entry of `batch`. */
  method SetSequence(batch: WriteBatch, s: SequenceNumber)
    requires batch.Valid()
    modifies batch
    ensures batch.rep == WithSequence(old(batch.rep), s)
    ensures batch.Valid() && Sequence(batch) == s
    ensures Count(batch) == old(Count(batch))
  {
    batch.rep := Coding.PutFixed(s, 8) + batch.rep[8..];
  }

  /** The bytes of `batch`, header included. */
  function Contents(batch: WriteBatch): (r: seq<bv8>)
    reads batch
    ensures r == batch.rep
  {
    batch.rep
  }

  /** Replaces the whole of `batch` by `contents`, which must hold at least a header. */
  method SetContents(batch: WriteBatch, contents: seq<bv8>)
    requires |contents| >= kHeader
    modifies batch
    ensures batch.rep == contents
    ensures batch.Valid() && Count(batch) == CountOf(contents) && Sequence(batch) == SequenceOf(contents)
  {
    batch.rep := contents;
  }

  /** The size of `batch` in bytes. */
  function ByteSize(batch: WriteBatch): (r: nat)
    reads batch
    ensures r == |Contents(batch)|
  {
    |batch.rep|
  }

  /**
   * Adds the entries of `src` to `dst`: the count of `dst` becomes the sum
   * of both counts and the entries of `src` follow those of `dst`. `src` may
   * be `dst` itself, in which case the batch doubles.
   */
  method Append(dst: WriteBatch, src: WriteBatch)
    requires dst.Valid() && src.Valid()
    requires SumFits(Count(dst), Count(src))
    modifies dst
    ensures dst.rep == AppendRep(old(dst.rep), old(src.rep))
    ensures dst.Valid() && Count(dst) == old(Count(dst)) + old(Count(src))
    ensures Sequence(dst) == old(Sequence(dst))
  {
    ghost var d, e := dst.rep, src.rep;
    var n := Count(dst) + Count(src);
    SetCount(dst, n);
    ghost var w := dst.rep;
    assert w == WithCount(d, n);
    if src == dst {
      assert src.rep == w;
    } else {
      assert src.rep == e;
    }
    assert src.rep[kHeader..] == e[kHeader..];
    dst.rep := dst.rep + src.rep[kHeader..];
    AppendRepSteps(d, e);
  }
}

=== FILE: writer_spec.dfy ===
/**
 * What log::Writer::AddRecord writes, as values: the plan of padding and
 * physical records its loop produces from a block offset and a payload, the
 * bytes of each physical record, and the properties the format relies on.
 */
module WriterSpec {
  import opened LogFormat
  import Crc32c
  import Coding

  /** One pass of AddRecord's loop: `pad` zero bytes, then one physical record. */
  datatype Emit = Emit(pad: nat, kind: RecordType, fragment: seq<bv8>)

  /** The three fields a reader finds in a 7-byte header. */
  datatype HeaderFields = HeaderFields(maskedCrc: bv32, length: nat, tag: nat)

  /** The type and payload of one physical record, as EmitPhysicalRecord is given them. */
  datatype Fragment = Fragment(kind: RecordType, payload: seq<bv8>)

  function Min(a: int, b: int): int {
    if a < b then a else b
  }

  /**
   * Offset in the block where the next record starts: a tail shorter than a
   * header is skipped, so a header always fits after it.
   */
  function RecordStart(offset: int): (r: int)
    ensures r == offset || r == 0
    ensures offset <= kBlockSize ==> r + kHeaderSize <= kBlockSize
    ensures 0 <= offset ==> 0 <= r <= offset
  {
    if kBlockSize - offset < kHeaderSize then 0 else offset
  }

  /** Zero bytes written before the next record: the whole tail when it cannot hold a header. */
  function Padding(offset: int): (r: nat)
    requires offset <= kBlockSize
    ensures r < kHeaderSize
    ensures kBlockSize - offset >= kHeaderSize ==> r == 0
    ensures kBlockSize - offset < kHeaderSize ==> offset + r == kBlockSize
    ensures RecordStart(offset) == if offset + r == kBlockSize then 0 else offset
  {
    if kBlockSize - offset < kHeaderSize then kBlockSize - offset else 0
  }

  /** The record type chosen from whether a fragment is the first and/or the last of its record. */
  function TypeFor(begin: bool, end: bool): (r: RecordType)
    ensures r.Full? <==> begin && end
    ensures r.First? <==> begin && !end
    ensures r.Middle? <==> !begin && !end
    ensures r.Last? <==> !begin && end
  {
    if begin && end then Full
    else if begin then First
    else if end then Last
    else Middle
  }

  /**
   * The padding and records AddRecord's do-while loop emits for `data` when
   * the block offset is `offset` and `begin` says whether no fragment of this
   * record has been written yet.
   */
  function Plan(offset: int, data: seq<bv8>, begin: bool): (r: seq<Emit>)
    requires 0 <= offset <= kBlockSize
    ensures |r| >= 1
    decreases |data|, kBlockSize - offset
  {
    var start := RecordStart(offset);
    var n := Min(|data|, kBlockSize - start - kHeaderSize);
    var e := Emit(Padding(offset), TypeFor(begin, n == |data|), data[..n]);
    if n == |data| then [e]
    else [e] + Plan(start + kHeaderSize + n, data[n..], false)
  }

  /** Block offset after emitting `e` from `offset`. */
  function Next(offset: int, e: Emit): int {
    RecordStart(offset) + kHeaderSize + |e.fragment|
  }

  /** Block offset after emitting every record of `emits` in order. */
  function Replay(offset: int, emits: seq<Emit>): int
    decreases |emits|
  {
    if emits == [] then offset else Replay(Next(offset, emits[0]), emits[1..])
  }

  /** The physical records of `emits`, in order, without their padding. */
  function Records(emits: seq<Emit>): seq<Fragment>
    decreases |emits|
  {
    if emits == [] then [] else [Fragment(emits[0].kind, emits[0].fragment)] + Records(emits[1..])
  }

  /** One more emit adds its record at the end. */
  lemma {:induction false} RecordsSnoc(emits: seq<Emit>, e: Emit)
    ensures Records(emits + [e]) == Records(emits) + [Fragment(e.kind, e.fragment)]
    decreases |emits|
  {
    if emits == [] {
      assert emits + [e] == [e];
    } else {
      assert (emits + [e])[1..] == emits[1..] + [e];
      RecordsSnoc(emits[1..], e);
    }
  }

  /** The records of `emits` are their types and fragments, one for one and in order. */
  lemma {:induction false} RecordsAt(emits: seq<Emit>)
    ensures |Records(emits)| == |emits|
    ensures forall i :: 0 <= i < |emits| ==> Records(emits)[i] == Fragment(emits[i].kind, emits[i].fragment)
    decreases |emits|
  {
    if emits != [] {
      RecordsAt(emits[1..]);
    }
  }

  /** The payloads of `emits`, concatenated in order. */
  function Payloads(emits: seq<Emit>): seq<bv8>
    decreases |emits|
  {
    if emits == [] then [] else emits[0].fragment + Payloads(emits[1..])
  }

  function Zeros(n: nat): (r: seq<bv8>)
    ensures |r| == n && forall i :: 0 <= i < n ==> r[i] == 0
  {
    seq(n, _ => 0)
  }

  /**
   * The 7-byte header of a record: masked CRC-32C of the type byte followed by
   * the payload (little-endian), the low and high bytes of the length, the type.
   */
  function Header(kind: RecordType, payload: seq<bv8>): (r: seq<bv8>)
    ensures |r| == kHeaderSize
  {
    var crc := Crc32c.Value([Tag(kind) as bv8] + payload);
    EncodeHeader(Crc32c.Mask(crc), |payload|, Tag(kind))
  }

  /** Header bytes 0-3: the stored checksum; 4-5: the length, low byte first, cut to 8 bits each; 6: the tag. */
  function EncodeHeader(masked: bv32, length: nat, tag: nat): (r: seq<bv8>)
    requires tag < 256
    ensures |r| == kHeaderSize
  {
    Coding.EncodeFixed32(masked) + [(length % 256) as bv8, ((length / 256) % 256) as bv8, tag as bv8]
  }

  /** One physical record: its header, then its payload unchanged. */
  function PhysicalRecord(kind: RecordType, payload: seq<bv8>): (r: seq<bv8>)
    ensures |r| == kHeaderSize + |payload|
    ensures r[kHeaderSize..] == payload
  {
    Header(kind, payload) + payload
  }

  /** What one emit appends: its padding zeros, then its physical record. */
  function EmitBytes(e: Emit): (r: seq<bv8>)
    ensures |r| == e.pad + kHeaderSize + |e.fragment|
  {
    Zeros(e.pad) + PhysicalRecord(e.kind, e.fragment)
  }

  /** The bytes `emits` append to the file. */
  function Stream(emits: seq<Emit>): seq<bv8>
    decreases |emits|
  {
    if emits == [] then [] else EmitBytes(emits[0]) + Stream(emits[1..])
  }

  /** The bytes of a sequence of emits start with the first emit's bytes, and every emit adds at least a header. */
  lemma {:induction false} StreamShape(emits: seq<Emit>)
    ensures |Stream(emits)| >= kHeaderSize * |emits|
    ensures emits != [] ==> EmitBytes(emits[0]) <= Stream(emits)
    decreases |emits|
  {
    if emits != [] {
      StreamShape(emits[1..]);
    }
  }

  /** What a reader takes out of a header. */
  function DecodeHeader(h: seq<bv8>): (r: HeaderFields)
    requires |h| == kHeaderSize
    ensures r.length <= 0xffff
  {
    HeaderFields(Coding.DecodeFixed32(h[..4]), h[4] as nat + 256 * (h[5] as nat), h[6] as nat)
  }

  /**
   * Every record of `emits`, started from block offset `offset`, is preceded
   * by exactly the padding the writer owes and lies inside a single block.
   */
  ghost predicate Confined(offset: int, emits: seq<Emit>)
    decreases |emits|
  {
    0 <= offset <= kBlockSize &&
    (emits != [] ==>
      emits[0].pad == Padding(offset) &&
      RecordStart(offset) + kHeaderSize + |emits[0].fragment| <= kBlockSize &&
      Confined(Next(offset, emits[0]), emits[1..]))
  }

  /** The types of one logical record's fragments: Full, or First Middle* Last. */
  ghost predicate FragmentGrammar(emits: seq<Emit>) {
    (|emits| == 1 && emits[0].kind == Full) ||
    (|emits| >= 2 && emits[0].kind == First && emits[|emits| - 1].kind == Last &&
     forall i :: 0 < i < |emits| - 1 ==> emits[i].kind == Middle)
  }

  // ---------------------------------------------------------------------------
  // Header encoding

  lemma LengthBytes(len: nat)
    requires len <= 0xffff
    ensures ((len % 256) as bv8) as nat + 256 * (((len / 256) % 256) as bv8) as nat == len
  {
    Coding.ByteValue(len % 256);
    Coding.ByteValue((len / 256) % 256);
    assert (len / 256) % 256 == len / 256;
  }

  /**
   * Extending the precomputed CRC of the tag byte by the payload yields the
   * checksum the header stores: the CRC of the tag byte followed by the payload.
   */
  lemma SeededHeader(kind: RecordType, payload: seq<bv8>)
    ensures Header(kind, payload)
         == EncodeHeader(Crc32c.Mask(Crc32c.Extend(Crc32c.Value([Tag(kind) as bv8]), payload)), |payload|, Tag(kind))
  {
    Crc32c.ExtendValue([Tag(kind) as bv8], payload);
  }

  /** Decoding an encoded header gives back its fields while the length fits in two bytes. */
  lemma EncodeHeaderRoundTrip(masked: bv32, length: nat, tag: nat)
    requires tag < 256 && length <= 0xffff
    ensures DecodeHeader(EncodeHeader(masked, length, tag)) == HeaderFields(masked, length, tag)
  {
    var h := EncodeHeader(masked, length, tag);
    assert h[..4] == Coding.EncodeFixed32(masked);
    Coding.Fixed32RoundTrip(masked);
    LengthBytes(length);
    Coding.ByteValue(tag);
  }

  /** A reader recovers the checksum, the length and the type of a record from its header. */
  lemma HeaderRoundTrip(kind: RecordType, payload: seq<bv8>)
    requires |payload| <= 0xffff
    ensures DecodeHeader(Header(kind, payload)).length == |payload|
    ensures FromTag(DecodeHeader(Header(kind, payload)).tag) == Some(kind)
    ensures Crc32c.Unmask(DecodeHeader(Header(kind, payload)).maskedCrc)
         == Crc32c.Value([Tag(kind) as bv8] + payload)
  {
    var crc := Crc32c.Value([Tag(kind) as bv8] + payload);
    EncodeHeaderRoundTrip(Crc32c.Mask(crc), |payload|, Tag(kind));
    Crc32c.UnmaskMask(crc);
    TagRoundTrip(kind);
  }

  // ---------------------------------------------------------------------------
  // Sequences of emits

  lemma {:induction false} ReplaySnoc(offset: int, emits: seq<Emit>, e: Emit)
    ensures Replay(offset, emits + [e]) == Next(Replay(offset, emits), e)
    decreases |emits|
  {
    if emits == [] {
      assert emits + [e] == [e];
    } else {
      assert (emits + [e])[1..] == emits[1..] + [e];
      ReplaySnoc(Next(offset, emits[0]), emits[1..], e);
    }
  }

  lemma {:induction false} StreamSnoc(emits: seq<Emit>, e: Emit)
    ensures Stream(emits + [e]) == Stream(emits) + EmitBytes(e)
    decreases |emits|
  {
    if emits == [] {
      assert emits + [e] == [e];
    } else {
      assert (emits + [e])[1..] == emits[1..] + [e];
      StreamSnoc(emits[1..], e);
    }
  }

  /** A file holding `base` then Stream(done) that is given the bytes of `e` holds `base` then Stream(done + [e]). */
  lemma StreamStep(base: seq<bv8>, done: seq<Emit>, e: Emit, before: seq<bv8>, now: seq<bv8>)
    requires before == base + Stream(done)
    requires now == before + EmitBytes(e)
    ensures now == base + Stream(done + [e])
  {
    StreamSnoc(done, e);
    Associate3(base, Stream(done), EmitBytes(e));
  }

  lemma Associate3<T>(a: seq<T>, b: seq<T>, c: seq<T>)
    ensures a + (b + c) == (a + b) + c
  {
  }

  // ---------------------------------------------------------------------------
  // Properties of the plan

  /** One pass of the loop: the first emit of the plan, then the plan for what is left. */
  lemma PlanStep(offset: int, data: seq<bv8>, begin: bool, n: int, e: Emit, rest: seq<Emit>)
    requires 0 <= offset <= kBlockSize
    requires n == Min(|data|, kBlockSize - RecordStart(offset) - kHeaderSize)
    requires e == Emit(Padding(offset), TypeFor(begin, n == |data|), data[..n])
    requires rest == if n == |data| then [] else Plan(RecordStart(offset) + kHeaderSize + n, data[n..], false)
    ensures Plan(offset, data, begin) == [e] + rest
  {
  }

  /**
   * Where AddRecord's loop stands after emitting `done`: `ptr` bytes of `data`
   * are written, the block offset is `offset`, and `done` is the beginning of the
   * plan made at `o0`; the rest of the plan is that for `data[ptr..]` unless
   * the record is complete.
   */
  ghost predicate Progress(o0: int, data: seq<bv8>, done: seq<Emit>, ptr: int, begin: bool, offset: int)
  {
    0 <= o0 <= kBlockSize && 0 <= ptr <= |data| && 0 <= offset <= kBlockSize &&
    (begin <==> done == []) &&
    offset == Replay(o0, done) &&
    (done == [] || ptr < |data| ==> Plan(o0, data, true) == done + Plan(offset, data[ptr..], begin)) &&
    (done != [] && ptr == |data| ==> Plan(o0, data, true) == done)
  }

  /** Before the loop nothing is written and the whole plan lies ahead. */
  lemma ProgressStart(o0: int, data: seq<bv8>)
    requires 0 <= o0 <= kBlockSize
    ensures Progress(o0, data, [], 0, true, o0)
  {
    assert data[0..] == data;
  }

  /**
   * One pass of the loop emits the next record of the plan: the fragment that
   * fits after the padding owed at `offset`, typed by whether it is the first
   * and whether it is the last.
   */
  lemma ProgressStep(o0: int, data: seq<bv8>, done: seq<Emit>, ptr: int, begin: bool, offset: int,
                     n: int, e: Emit, done': seq<Emit>, ptr': int, next: int)
    requires Progress(o0, data, done, ptr, begin, offset)
    requires done == [] || ptr < |data|
    requires n == Min(|data| - ptr, kBlockSize - RecordStart(offset) - kHeaderSize)
    requires 0 <= n && ptr + n <= |data|
    requires e == Emit(Padding(offset), TypeFor(begin, ptr + n == |data|), data[ptr..ptr + n])
    requires done' == done + [e] && ptr' == ptr + n && next == RecordStart(offset) + kHeaderSize + n
    ensures Progress(o0, data, done', ptr', false, next)
  {
    var plan := Plan(o0, data, true);
    var d := data[ptr..];
    assert plan == done + Plan(offset, d, begin);
    var rest := if n == |d| then [] else Plan(next, d[n..], false);
    assert d[..n] == data[ptr..ptr + n];
    PlanStep(offset, d, begin, n, e, rest);
    Associate3(done, [e], rest);
    ReplaySnoc(o0, done, e);
    if ptr' < |data| {
      assert d[n..] == data[ptr'..];
    }
  }

  /** The loop always emits at least one record; an empty payload yields one empty Full record. */
  lemma EmptyRecord(offset: int)
    requires 0 <= offset <= kBlockSize
    ensures Plan(offset, [], true) == [Emit(Padding(offset), Full, [])]
  {
  }

  /** The fragments' payloads, concatenated in order, are the input. */
  lemma {:induction false} PlanPayloads(offset: int, data: seq<bv8>, begin: bool)
    requires 0 <= offset <= kBlockSize
    ensures Payloads(Plan(offset, data, begin)) == data
    decreases |data|, kBlockSize - offset
  {
    var start := RecordStart(offset);
    var n := Min(|data|, kBlockSize - start - kHeaderSize);
    var r := Plan(offset, data, begin);
    var e := Emit(Padding(offset), TypeFor(begin, n == |data|), data[..n]);
    if n == |data| {
      assert r == [e];
      assert data[..n] == data;
      assert Payloads(r) == data + Payloads([]);
    } else {
      var rest := Plan(start + kHeaderSize + n, data[n..], false);
      assert r == [e] + rest;
      assert r[1..] == rest;
      PlanPayloads(start + kHeaderSize + n, data[n..], false);
      assert Payloads(r) == data[..n] + data[n..];
      assert data == data[..n] + data[n..];
    }
  }

  /** Types chosen by the loop: the first from `begin`, the last one Last, Middle in between. */
  lemma {:induction false} PlanKinds(offset: int, data: seq<bv8>, begin: bool)
    requires 0 <= offset <= kBlockSize
    ensures var r := Plan(offset, data, begin);
      (|r| == 1 ==> r[0].kind == TypeFor(begin, true)) &&
      (|r| > 1 ==> r[0].kind == TypeFor(begin, false) && r[|r| - 1].kind == Last &&
                   forall i :: 0 < i < |r| - 1 ==> r[i].kind == Middle)
    decreases |data|, kBlockSize - offset
  {
    var start := RecordStart(offset);
    var n := Min(|data|, kBlockSize - start - kHeaderSize);
    var r := Plan(offset, data, begin);
    if n < |data| {
      var rest := Plan(start + kHeaderSize + n, data[n..], false);
      PlanKinds(start + kHeaderSize + n, data[n..], false);
      assert r == [r[0]] + rest;
      forall i | 0 < i < |r| - 1
        ensures r[i].kind == Middle
      {
        assert r[i] == rest[i - 1];
      }
    }
  }

  /** Over one AddRecord call the record types form Full or First Middle* Last. */
  lemma PlanGrammar(offset: int, data: seq<bv8>)
    requires 0 <= offset <= kBlockSize
    ensures FragmentGrammar(Plan(offset, data, true))
  {
    PlanKinds(offset, data, true);
  }

  /** Every record the plan emits fits in its block, after exactly the padding owed. */
  lemma {:induction false} PlanConfined(offset: int, data: seq<bv8>, begin: bool)
    requires 0 <= offset <= kBlockSize
    ensures Confined(offset, Plan(offset, data, begin))
    decreases |data|, kBlockSize - offset
  {
    var start := RecordStart(offset);
    var n := Min(|data|, kBlockSize - start - kHeaderSize);
    var r := Plan(offset, data, begin);
    if n == |data| {
      assert r[1..] == [];
    } else {
      PlanConfined(start + kHeaderSize + n, data[n..], false);
      assert r[1..] == Plan(start + kHeaderSize + n, data[n..], false);
    }
  }

  /** A record confined to its block never exceeds the two-byte length field. */
  lemma {:induction false} ConfinedFragmentsFit(offset: int, emits: seq<Emit>)
    requires Confined(offset, emits)
    ensures forall i :: 0 <= i < |emits| ==> |emits[i].fragment| <= kBlockSize - kHeaderSize <= 0xffff
    ensures kHeaderSize <= Replay(offset, emits) <= kBlockSize || (emits == [] && Replay(offset, emits) == offset)
    decreases |emits|
  {
    if emits != [] {
      ConfinedFragmentsFit(Next(offset, emits[0]), emits[1..]);
      forall i | 0 < i < |emits|
        ensures |emits[i].fragment| <= kBlockSize - kHeaderSize
      {
        assert emits[i] == emits[1..][i - 1];
      }
    }
  }

  lemma ModShift(a: int, b: int, k: int)
    requires a % kBlockSize == b % kBlockSize
    ensures (a + k) % kBlockSize == (b + k) % kBlockSize
  {
    var qa, qb := a / kBlockSize, b / kBlockSize;
    assert a == qa * kBlockSize + a % kBlockSize;
    assert b == qb * kBlockSize + b % kBlockSize;
    assert a + k == (qa - qb) * kBlockSize + (b + k);
  }

  /** The file length after one emit stays congruent to the block offset after it. */
  lemma StepAligned(length: nat, offset: int, e: Emit)
    requires 0 <= offset <= kBlockSize && e.pad == Padding(offset)
    requires length % kBlockSize == offset % kBlockSize
    ensures (length + |EmitBytes(e)|) % kBlockSize == Next(offset, e) % kBlockSize
  {
    var k := kHeaderSize + |e.fragment|;
    if offset + e.pad == kBlockSize {
      ModShift(length, offset, e.pad + k);
      ModShift(offset + e.pad, 0, k);
    } else {
      ModShift(length, offset, k);
    }
  }

  /**
   * When every write succeeds, the file length stays congruent to the block
   * offset modulo the block size.
   */
  lemma {:induction false} StreamAligned(length: nat, offset: int, emits: seq<Emit>)
    requires Confined(offset, emits)
    requires length % kBlockSize == offset % kBlockSize
    ensures (length + |Stream(emits)|) % kBlockSize == Replay(offset, emits) % kBlockSize
    decreases |emits|
  {
    if emits != [] {
      var e := emits[0];
      StepAligned(length, offset, e);
      StreamAligned(length + |EmitBytes(e)|, Next(offset, e), emits[1..]);
      assert |Stream(emits)| == |EmitBytes(e)| + |Stream(emits[1..])|;
    }
  }

  // ---------------------------------------------------------------------------
  // Fragmentation at a block boundary

  /** A payload of exactly kBlockSize - kHeaderSize bytes from offset 0 is one Full record. */
  lemma ExactFillIsFull(data: seq<bv8>)
    requires |data| == kBlockSize - kHeaderSize
    ensures Plan(0, data, true) == [Emit(0, Full, data)]
    ensures Replay(0, Plan(0, data, true)) == kBlockSize
  {
    assert data[..kBlockSize - kHeaderSize] == data;
    var e := Emit(0, Full, data);
    assert Plan(0, data, true) == [e];
    assert Replay(0, [e]) == Replay(Next(0, e), []);
  }

  /** One byte more splits into First (filling the block) and Last (one byte, next block). */
  lemma OneByteOverIsFirstLast(data: seq<bv8>)
    requires |data| == kBlockSize - kHeaderSize + 1
    ensures Plan(0, data, true) == [Emit(0, First, data[..kBlockSize - kHeaderSize]), Emit(0, Last, data[kBlockSize - kHeaderSize..])]
  {
    var n := kBlockSize - kHeaderSize;
    assert Plan(0, data, true) == [Emit(0, First, data[..n])] + Plan(kBlockSize, data[n..], false);
    assert data[n..][..1] == data[n..];
    assert Plan(kBlockSize, data[n..], false) == [Emit(0, Last, data[n..])];
  }

  // ---------------------------------------------------------------------------
  // The bound EmitPhysicalRecord asserts

  /** The bound as db/log_writer.cc asserts it before writing a record. */
  predicate StrictBoundAsWritten(offset: int, length: nat) {
    offset + kHeaderSize + length < kBlockSize
  }

  /** The bound AddRecord actually guarantees: the record ends at or before the block end. */
  predicate RecordFits(offset: int, length: nat) {
    offset + kHeaderSize + length <= kBlockSize
  }

  /** A record that exactly fills its block is planned, yet breaks the strict assertion. */
  lemma ExactFillBreaksStrictBound(data: seq<bv8>)
    requires |data| == kBlockSize - kHeaderSize
    ensures var e := Plan(0, data, true)[0];
      RecordFits(RecordStart(0), |e.fragment|) && !StrictBoundAsWritten(RecordStart(0), |e.fragment|)
  {
    ExactFillIsFull(data);
  }

  /**
   * A fragment that is not the last of its record (a First or a Middle) ends
   * exactly at the end of its block, so every record that continues into
   * another block breaks the strict assertion too.
   */
  lemma SpillBreaksStrictBound(offset: int, data: seq<bv8>, begin: bool)
    requires 0 <= offset <= kBlockSize
    requires |Plan(offset, data, begin)| >= 2
    ensures var e := Plan(offset, data, begin)[0];
      e.kind == TypeFor(begin, false) && RecordStart(offset) + kHeaderSize + |e.fragment| == kBlockSize &&
      RecordFits(RecordStart(offset), |e.fragment|) && !StrictBoundAsWritten(RecordStart(offset), |e.fragment|)
  {
  }

  /** Every record the plan emits satisfies the non-strict bound. */
  lemma {:induction false} PlanRecordsFit(offset: int, data: seq<bv8>, begin: bool)
    requires 0 <= offset <= kBlockSize
    ensures forall i :: 0 <= i < |Plan(offset, data, begin)| ==>
      var r := Plan(offset, data, begin);
      RecordFits(RecordStart(Replay(offset, r[..i])), |r[i].fragment|)
    decreases |data|, kBlockSize - offset
  {
    var start := RecordStart(offset);
    var n := Min(|data|, kBlockSize - start - kHeaderSize);
    var r := Plan(offset, data, begin);
    if n < |data| {
      var o' := start + kHeaderSize + n;
      var rest := Plan(o', data[n..], false);
      PlanRecordsFit(o', data[n..], false);
      assert r == [r[0]] + rest;
      forall i | 0 < i < |r|
        ensures RecordFits(RecordStart(Replay(offset, r[..i])), |r[i].fragment|)
      {
        assert r[..i] == [r[0]] + rest[..i - 1];
        assert r[..i][1..] == rest[..i - 1];
        assert r[i] == rest[i - 1];
      }
    }
    assert r[..0] == [];
  }
}
